=== FILE: README.md ===
# sensor_trigger scheduling model

A Dafny model of the trigger node of `sensor_trigger`: a ROS node that raises
a GPIO line at a fixed frame rate and phase within each second, and publishes
the time of each trigger. The model covers the integer scheduling arithmetic
of `SensorTrigger::run`, the constructor's guards, and the GPIO name lookup
`SensorTrigger::get_gpio_chip_and_line`.

Clock readings are inputs: each is the `nsec` field of the current ROS time,
a nanosecond-of-second value in [0, 1e9). A wait loop gets the sequence of
readings it would take and reports which reading let it exit. The GPIO
driver's answers are inputs, `ros::ok()` is the number of iterations
supplied, and `exit(1)` is an absorbing `Failed` state.

Modules:

- `Wrappers` (`wrappers.dfy`): `Option` and `Result`.
- `Timing` (`timing.dfy`): the constants `1e9`, `1e7` and `1e6`, the int32
  range of the stamp's seconds, and truncating division and conversion (C++ rounds
  toward zero, unlike Dafny's Euclidean `/`).
- `GpioMapping` (`gpio_mapping.dfy`): resolving a GPIO name through the
  mapping file, which is abstracted to a map from names to entries.
- `Setup` (`setup.dfy`): the constructor's error order and the interval
  `(int64_t)(1e9 / fps_)`.
- `Schedule` (`schedule.dfy`): the `TimingState` (`start`, `end`,
  `interval`, `target`, `wait`), the start offset, the catch-up loop, the
  coarse wait, the three busy-wait loops and the advance step.
- `TriggerLoop` (`trigger_loop.dfy`): the published stamp, one loop
  iteration, the loop over many iterations, and construction followed by
  the loop.

Behaviours of the code worth knowing:

- A frame rate below 1 is rejected only after the GPIO name has been
  resolved and the line claimed (`Setup.LowFrameRateCheckedAfterClaim`).
  It is not rejected before any GPIO work.
- A stamp is published even in an iteration whose line transition failed.
  The loop stops only after publishing it (`TriggerLoop.FailingCycleIsLast`).
- The published nanoseconds are the busy-wait's exit reading, not the
  pulse-corrected time. The seconds are computed from the `nsec` field
  alone, so they are 0 for every pulse shorter than one second
  (`TriggerLoop.TriggerStamp`).
- The interval is truncated, not rounded (`Setup.IntervalNs`).
- The advance wraps to the start offset, not modulo one second. The two
  agree along the grid of the start offset when the interval divides the
  second and the offset lies within the first interval
  (`Schedule.AdvanceIsModuloOnGrid`); when the interval does not divide
  the second they can differ (`Schedule.AdvanceIsNotModuloForUnevenInterval`).
- When the interval does not divide the second, the catch-up of the
  coarse wait can carry the target past the end of the second. The normal
  busy-wait then waits for a reading no clock gives
  (`Schedule.CatchUpOvershootsTheSecond`).
- With one frame per second the window is empty and the busy-wait fires
  within 10 ms after the top of the second, whatever the phase
  (`Schedule.FineWait`).

## Model

| member | source | states |
|---|---|---|
| `GpioMapping.ResolveGpio` | src/sensor_trigger.cpp:124-134 | success exactly when the name has an entry holding both chip and line; the pins then come from the entry; on failure the held pins are unchanged |
| `GpioMapping.ResolveGpioIsLocal` | src/sensor_trigger.cpp:124-134 | resolution depends only on the entry under the looked-up name, and a successful result not on the pins held before |
| `Setup.IntervalNs` | src/sensor_trigger.cpp:58 | for a frame rate of at least 1 the interval is the largest whole number of nanoseconds with interval·fps ≤ 1e9; it is at most 1e9, and at least 1 exactly when fps ≤ 1e9 |
| `Setup.ConstructAsWritten` | src/sensor_trigger.cpp:26-43 | the error is NoValidGpio, GpioInitFailed or FrameRateTooLow exactly in that order of checks; success exactly when all three pass, keeping the parameters and the resolved pins |
| `Setup.Construct` | src/sensor_trigger.cpp:39-43 | agrees with the constructor as written, except that a frame rate above 1e9 is rejected; every accepted node has an interval in [1, 1e9] |
| `Setup.LowFrameRateCheckedAfterClaim` | src/sensor_trigger.cpp:33-43 | when the claim of the line fails, the error is the GPIO one, whatever the frame rate |
| `Schedule.StartOffset` | src/sensor_trigger.cpp:63-67 | a phase in [0, 360) gives an offset in [0, interval); a phase in (-360, 0] gives one in (-interval, 0]; a negligible phase or a zero interval gives 0 |
| `Schedule.NegligiblePhaseBranchRedundant` | src/sensor_trigger.cpp:63-67 | the near-zero branch never changes the offset: the truncating formula alone gives the same value for every phase |
| `Schedule.StartOffsetOdd` | src/sensor_trigger.cpp:66 | negating the phase negates the offset |
| `Schedule.InitialState` | src/sensor_trigger.cpp:63-69 | the target starts at the start offset; the window end lies 1e9 - interval after it; end ≥ start exactly when interval ≤ 1e9, and start = end exactly when interval = 1e9 |
| `Schedule.CatchUp` | src/sensor_trigger.cpp:77-79 | the loop terminates for a positive interval; the target does not decrease, ends at or after the reading, moves by whole intervals, and is one interval past a value behind the reading when it moved |
| `Schedule.CatchUpIsUnique` | src/sensor_trigger.cpp:77-79 | any value meeting the catch-up contract is the value the loop computes |
| `Schedule.CatchUpPasses` | src/sensor_trigger.cpp:77-79 | k passes of the loop body, run without the guard, move the target by k intervals |
| `Schedule.CatchUpIsPasses` | src/sensor_trigger.cpp:77-79 | the catch-up loop ends after a whole, non-negative number of passes of its body |
| `Schedule.CoarseStepAsWritten` | src/sensor_trigger.cpp:76-85 | before the window end the target catches up and the budget is the gap minus 10 ms, never below -10 ms; at or after it the target returns to the start offset and the budget is the time to the next start minus 10 ms, at most interval - 10 ms; a target on the grid of the start offset stays on it |
| `Schedule.CoarseStep` | src/sensor_trigger.cpp:76-85 | the pass as written, except that a catch-up reaching the end of the second or beyond is replaced by the start offset of the next second with the budget of the window-end branch; a start offset inside the second keeps the target inside it, and the grid of the start offset is kept |
| `Schedule.CatchUpOvershootsTheSecond` | src/sensor_trigger.cpp:74-102 | at 34.48 fps and phase 248.3 the readings 978.2 ms and 987.15 ms end the coarse wait as written with target 1_006_082_424 ns; the next reading selects the normal busy-wait, which no reading in [0, 1e9) ends; the corrected pass aims at the start offset instead |
| `Schedule.AimedTargetIsReachable` | src/sensor_trigger.cpp:99-102 | with the corrected pass and a start offset inside the second, the target the coarse wait ends with is a clock value, and the normal busy-wait ends at it and at every later reading of the second |
| `Schedule.CoarseSleep` | src/sensor_trigger.cpp:88-90 | a sleep is requested exactly when the budget exceeds 10 ms; it is half the budget and at least 5 ms, so a negative budget never sleeps |
| `Schedule.PassState` | src/sensor_trigger.cpp:74-85 | the passes of the coarse wait keep the start, window end and interval |
| `Schedule.CoarseWait` | src/sensor_trigger.cpp:74-91 | it exits at the first pass whose budget is at most 10 ms and stalls only when no pass's budget is; every earlier pass had a budget above 10 ms and slept half of it, at least 5 ms; on exit the target is at most 20 ms after the last reading (or the start of the next second at most 20 ms away), and below 1e9 when the start offset is; a non-negative target stays non-negative, and a target on the grid of the start offset stays on it |
| `Schedule.SpinFrom` | src/sensor_trigger.cpp:96-106 | the index returned is the first reading that ends the busy-wait; none is returned only when no reading does |
| `Schedule.FineWait` | src/sensor_trigger.cpp:94-107 | the exit reading is at most 10 ms with an empty window, at or past the target in the normal case, and within [start, end] in the wrap case; no earlier reading satisfies the chosen loop |
| `Schedule.Advance` | src/sensor_trigger.cpp:116 | the new target is one interval later when that stays inside the second, and the start offset otherwise; from a non-negative target with the offset inside the second it lies in [0, 1e9); a target on the grid of the start offset stays on it |
| `Schedule.AdvanceWalksTheSecond` | src/sensor_trigger.cpp:116 | from the start offset, negative or not, successive advances visit the offset plus 0, 1, 2, ... intervals while inside the second, then return to the offset: no trigger instant of the second is skipped or repeated |
| `Schedule.AdvanceIsModuloOnGrid` | src/sensor_trigger.cpp:116 | when the interval divides the second and the start offset lies in [0, interval), the advance from any point of the offset's grid inside the second is addition of the interval modulo 1e9 |
| `Schedule.AdvanceIsNotModuloForUnevenInterval` | src/sensor_trigger.cpp:116 | with a 300 ms interval the advance from 900 ms returns to 0, where addition modulo one second gives 200 ms |
| `TriggerLoop.TriggerStamp` | src/sensor_trigger.cpp:110-113 | the nanoseconds are the busy-wait reading; the seconds fit in int32, are never positive for a non-negative pulse, are 0 exactly when the post-pulse reading minus the pulse is above -1 s, and so are 0 for pulses under one second |
| `TriggerLoop.Cycle` | src/sensor_trigger.cpp:74-120 | an iteration is fatal exactly when a transition failed; it aims at the target the coarse wait ends with; its stamp's nanoseconds are the first busy-wait reading that ends the loop chosen for that target, and its seconds fit in int32 and are 0 for short pulses; from a non-negative target with the start offset in [0, 1e9) the aimed target and the next target lie in [0, 1e9); the next state is the advance of the aimed state (the aimed target plus the interval, or the start offset); the grid of the start offset is kept |
| `TriggerLoop.CycleFollowsWaits` | src/sensor_trigger.cpp:74-107 | an iteration aims at the target the coarse wait ends with, stamps the first busy-wait reading that ends the loop chosen for it, and stalls exactly when one of the two waits runs out of readings |
| `TriggerLoop.Run` | src/sensor_trigger.cpp:71-121 | at most one stamp per iteration, the first being the first iteration's; a failed loop never resumes; it fails only after publishing the stamp of an iteration whose transition failed; a running loop keeps its schedule |
| `TriggerLoop.RunStopsOnStall` | src/sensor_trigger.cpp:71-107 | a loop still running with fewer stamps than iterations stopped because the next iteration's waits ran out of readings |
| `TriggerLoop.RunKeepsTarget` | src/sensor_trigger.cpp:74-116 | between iterations the target stays on the grid of the start offset, and within [0, 1e9) when it started there |
| `TriggerLoop.RunTransitionsSucceeded` | src/sensor_trigger.cpp:109-120 | every iteration that published a stamp, other than a failing last one, had both line transitions succeed |
| `TriggerLoop.RunStamp` | src/sensor_trigger.cpp:94-114 | every published stamp's nanoseconds are a busy-wait reading of its own iteration, and its seconds are 0 for pulses under one second |
| `TriggerLoop.FailingCycleIsLast` | src/sensor_trigger.cpp:114-120 | an iteration that fires with a failed transition publishes its stamp and then ends the loop, whatever iterations would follow |
| `TriggerLoop.SucceedingCycleContinues` | src/sensor_trigger.cpp:114-121 | an iteration that fires with both transitions succeeding publishes its stamp and hands the advanced target to the rest of the loop |
| `TriggerLoop.Launch` | src/sensor_trigger.cpp:28-69 | the node fails before any stamp exactly when construction fails, and with the same error; otherwise the frame rate is at least 1, the interval at least 1, and the result is the loop run from the initial state of that interval and phase |
| `TriggerLoop.LaunchKeepsTarget` | src/sensor_trigger.cpp:63-116 | after a successful construction the target stays on the grid of the start offset, and within the second for a phase in [0, 360) |
| `TriggerLoop.ZeroIntervalNeverCatchesUp` | src/sensor_trigger.cpp:77-79 | with a zero interval no number of catch-up passes brings the target level with a reading ahead of it |
| `TriggerLoop.GigahertzFrameRateHangs` | src/sensor_trigger.cpp:39-43 | a frame rate of 2e9 is accepted as written, gives a zero interval, offset 0 and window end 1e9, so the catch-up loop never exits for any reading after 0; the corrected constructor rejects it |

## Findings

| source | as written | input that shows it | evidently intended | confidence | as-written member | corrected member |
|---|---|---|---|---|---|---|
| src/sensor_trigger.cpp:39-43 | only frame rates below 1 are rejected; `(int64_t)(1e9 / fps_)` at line 58 is 0 for any rate above 1e9, and the catch-up loop at lines 77-79 then never exits | `frame_rate` = 2e9 with a valid GPIO entry, any clock reading above 0 | reject rates whose interval truncates to 0, as the lower bound already rejects rates that are too slow | not executed; medium | `TriggerLoop.GigahertzFrameRateHangs` (on `Setup.ConstructAsWritten` and `Schedule.CatchUpPasses`) | `Setup.Construct` |
| src/sensor_trigger.cpp:77-81, 99-102 | before the window end the catch-up adds whole intervals until the target reaches the reading; when the interval does not divide the second the result can lie at or past 1e9, the coarse wait exits on it, and the normal busy-wait `while (now_nsec < target_nsec)` never ends, because `nsec` stays below 1e9 | 34.48 fps, phase 248.3, readings 978.2 ms, 987.15 ms, 987.16 ms | aim at the start offset of the next second, as the window-end branch does | not executed; medium | `Schedule.CatchUpOvershootsTheSecond` (on `Schedule.CoarseStepAsWritten`) | `Schedule.CoarseStep` (with `Schedule.AimedTargetIsReachable`) |

## Left out

- TriggerLoop.Launch: runs the corrected constructor `Setup.Construct`, so a frame rate above 1e9 is rejected instead of hanging as lines 28-43 of the constructor allow; the hang itself is `TriggerLoop.GigahertzFrameRateHangs`.
- Parameter loading, the publisher and `ros::ok()` are middleware. Parameters are a `Params` value, publishing is the list of stamps, and the loop runs over the iterations supplied.
- Loading the YAML mapping file is a foreign library. The mapping is a map from names to entries whose `chip` and `line` may be missing. A failing `as<unsigned int>()` conversion is not modelled.
- The `jetson_gpio` driver is not part of this model. Claiming the line is an opaque predicate on the pins, and the two transitions are opaque booleans.
- Sleeping and reading the clock are I/O. Readings are inputs. The coarse wait reports the sleeps it requests but does not perform them.
- `Stalled` is a model artefact. It means the readings supplied ran out before a wait loop exited. The real loop would still be waiting: either for a reading yet to come, or, as written, forever in the busy-wait after a catch-up past the end of the second (`Schedule.CatchUpOvershootsTheSecond`).
- Schedule.CoarseStep: the coarse wait, `TriggerLoop.Cycle`, `TriggerLoop.Run` and `TriggerLoop.Launch` use the corrected pass, not the source's. With an interval above 20 ms the corrected branch never ends the coarse wait, so exits agree with the source's. With a shorter interval it can end the wait before the window end, and the busy-wait that follows can then fire at once, up to 20 ms before the next second's start offset. Choosing the busy-wait loop for the next second is not modelled.
- Non-finite frame rates and phases (NaN, ±inf) are not modelled: both are exact reals. An infinite rate gives the zero interval of the first finding. A NaN rate passes the `fps_ < 1.0` guard at line 39, and the cast at line 58 is then undefined. A NaN phase reaches the cast at line 66 the same way.
- `Setup.IntervalNs`: the frame rate is an exact real, so the rounding of the double quotient `1e9 / fps_` before truncation is not modelled.
- `Schedule.StartOffset`: the phase is an exact real, so the rounding of `phase_ * 10` and of the `1e-7` comparison is not modelled. The int64 overflow of `interval * (int64_t)(phase * 10)` is not modelled either; it needs a phase above about 9e8.
- `TriggerLoop.TriggerStamp`: the division by `1e9` is done in double in the source; here it is exact truncating division, which agrees for all magnitudes that occur (below 2^53).
- The 32-bit casts of the stamp's fields are not written out, because the model proves both values already lie in range (int32 seconds, nanoseconds in [0, 1e9)).
- The unused `iomutex_` member and the header `include/sensor_trigger/sensor_trigger.hpp` hold no logic.
- Error logging before `exit(1)` is output only.

=== FILE: gpio_mapping.dfy ===
/**
 * Resolution of a GPIO name to a chip and line number through the mapping
 * file (`SensorTrigger::get_gpio_chip_and_line`). The YAML document is
 * abstracted to a map from names to entries whose `chip` and `line` keys may
 * each be missing.
 */
module GpioMapping {
  import opened Wrappers

  /** One entry of the mapping file; a key that is absent is `None`. */
  datatype GpioEntry = GpioEntry(chip: Option<nat>, line: Option<nat>)

  type Mapping = map<string, GpioEntry>

  /** The chip and line numbers the node keeps in its members. */
  datatype Pins = Pins(chip: nat, line: nat)

  /** True when `name` has an entry holding both a chip and a line number. */
  predicate HasValidEntry(mapping: Mapping, name: string)
  {
    name in mapping && mapping[name].chip.Some? && mapping[name].line.Some?
  }

  /**
   * Looks `name` up. On success the pins are taken from the entry; on
   * failure the previously held pins come back untouched.
   */
  function ResolveGpio(mapping: Mapping, name: string, held: Pins): (r: (bool, Pins))
    ensures r.0 <==> HasValidEntry(mapping, name)
    ensures r.0 ==> r.1.chip == mapping[name].chip.value && r.1.line == mapping[name].line.value
    ensures !r.0 ==> r.1 == held
  {
    if name in mapping && mapping[name].chip.Some? && mapping[name].line.Some? then
      (true, Pins(mapping[name].chip.value, mapping[name].line.value))
    else
      (false, held)
  }

  /**
   * Resolution depends only on the entry stored under the looked-up name:
   * two mappings that agree there resolve alike, and a successful
   * resolution does not depend on what was held before.
   */
  lemma ResolveGpioIsLocal(m1: Mapping, m2: Mapping, name: string, held1: Pins, held2: Pins)
    requires (name in m1 <==> name in m2) && (name in m1 ==> m1[name] == m2[name])
    ensures ResolveGpio(m1, name, held1).0 == ResolveGpio(m2, name, held2).0
    ensures ResolveGpio(m1, name, held1).0 ==> ResolveGpio(m1, name, held1).1 == ResolveGpio(m2, name, held2).1
  {
  }
}

=== FILE: schedule.dfy ===
/**
 * The scheduling arithmetic of `SensorTrigger::run`: the start offset and
 * window end derived once, the coarse wait with its catch-up loop, the
 * busy-wait exit conditions and the advance to the next target.
 *
 * Clock readings are inputs: each is the `nsec` field of the current time,
 * a nanosecond-of-second value in [0, 1e9). A spin loop is given the
 * sequence of readings it would take, and reports which one let it exit.
 */
module Schedule {
  import opened Wrappers
  import opened Timing

  /**
   * The loop's timing state. `start`, `end` and `interval` are fixed when
   * the loop starts; `target` (the next trigger instant within the second)
   * and `wait` (the coarse sleep budget) change every iteration.
   */
  datatype TimingState = TimingState(start: int, end: int, interval: int, target: int, wait: int)
  {
    /** The relation between the fixed fields set up before the loop. */
    predicate WellFormed()
    {
      interval > 0 && end == start - interval + NsPerSec
    }

    /** True when the target is the start offset plus a whole number of intervals. */
    predicate OnGrid()
    {
      interval > 0 && (target - start) % interval == 0
    }

    /** True when the fixed fields of `other` are those of this state. */
    predicate SameSchedule(other: TimingState)
    {
      start == other.start && end == other.end && interval == other.interval
    }
  }

  /** Phases whose magnitude is at most this count as zero (the literal `1e-7`). */
  const PhaseEpsilon: real := 0.0000001

  /** The divisor applied to the scaled phase (the literal `3600`). */
  const PhaseDivisor: int := 3600

  /**
   * The offset of the first trigger within the second: 0 for a negligible
   * phase, otherwise `interval * (int64_t)(phase * 10) / 3600`, truncating
   * at both steps. A phase in [0, 360) places the offset within the first
   * interval; a negative phase gives the mirror-image negative offset.
   */
  function StartOffset(interval: int, phase: real): (r: int)
    ensures interval > 0 && 0.0 <= phase < 360.0 ==> 0 <= r < interval
    ensures interval > 0 && -360.0 < phase <= 0.0 ==> -interval < r <= 0
    ensures AbsReal(phase) <= PhaseEpsilon || interval == 0 ==> r == 0
  {
    if AbsReal(phase) <= PhaseEpsilon then 0
    else
      var scaled := TruncReal(phase * 10.0);
      assert interval > 0 && -3600 < scaled < 3600 ==>
        -interval * PhaseDivisor < interval * scaled < interval * PhaseDivisor by {
        if interval > 0 && -3600 < scaled < 3600 {
          ScaleBound(interval, scaled);
        }
      }
      TruncDiv(interval * scaled, PhaseDivisor)
  }

  lemma ScaleBound(interval: int, scaled: int)
    requires interval > 0 && -PhaseDivisor < scaled < PhaseDivisor
    ensures -interval * PhaseDivisor < interval * scaled < interval * PhaseDivisor
    ensures scaled >= 0 ==> interval * scaled >= 0
    ensures scaled <= 0 ==> interval * scaled <= 0
  {
    MulMonotone(interval, scaled + 1, PhaseDivisor);
    MulMonotone(interval, 1 - PhaseDivisor, scaled);
    if scaled >= 0 { MulMonotone(interval, 0, scaled); } else { MulMonotone(interval, scaled, 0); }
  }

  /**
   * The negligible-phase branch never changes the outcome: a phase that
   * small truncates to 0 after scaling by 10, so the general formula alone
   * gives the same offset.
   */
  lemma NegligiblePhaseBranchRedundant(interval: int, phase: real)
    requires interval > 0
    ensures StartOffset(interval, phase) == TruncDiv(interval * TruncReal(phase * 10.0), PhaseDivisor)
  {
    if AbsReal(phase) <= PhaseEpsilon {
      assert -1.0 < phase * 10.0 < 1.0;
      assert TruncReal(phase * 10.0) == 0;
    }
  }

  /** The offset is an odd function of the phase. */
  lemma StartOffsetOdd(interval: int, phase: real)
    requires interval > 0
    ensures StartOffset(interval, -phase) == -StartOffset(interval, phase)
  {
  }

  /**
   * The state the loop starts from: target at the start offset and the
   * window end one interval before the start offset of the next second.
   * The window is empty (start equals end) exactly at one frame per second.
   */
  function InitialState(interval: int, phase: real): (s: TimingState)
    requires interval > 0
    ensures s.WellFormed() && s.interval == interval
    ensures s.target == s.start && s.wait == 0
    ensures s.start == StartOffset(interval, phase)
    ensures interval <= NsPerSec <==> s.start <= s.end
    ensures s.start == s.end <==> interval == NsPerSec
  {
    var start := StartOffset(interval, phase);
    TimingState(start, start - interval + NsPerSec, interval, start, 0)
  }

  /**
   * The catch-up loop `while (now > target) target += interval`. It ends
   * with the first target of the form `target + k * interval` that is not
   * behind `now`; the target never moves backwards.
   */
  function CatchUp(target: int, now: int, interval: int): (r: int)
    requires interval > 0
    ensures r >= now && r >= target
    ensures (r - target) % interval == 0
    ensures r > target ==> r - interval < now
    decreases now - target
  {
    if now > target then
      var r := CatchUp(target + interval, now, interval);
      ShiftMod(r, target, interval);
      r
    else target
  }

  lemma ShiftMod(r: int, target: int, interval: int)
    requires interval > 0 && (r - (target + interval)) % interval == 0
    ensures (r - target) % interval == 0
  {
    ModAddPeriod(r - (target + interval), interval);
  }

  /**
   * The contract of `CatchUp` pins its result down: any value that is not
   * behind `now`, is reached from `target` by whole intervals, and is the
   * first such step is the value the loop computes.
   */
  lemma CatchUpIsUnique(target: int, now: int, interval: int, r': int)
    requires interval > 0
    requires r' >= now && r' >= target
    requires (r' - target) % interval == 0
    requires r' > target ==> r' - interval < now
    ensures r' == CatchUp(target, now, interval)
  {
    var r := CatchUp(target, now, interval);
    var a := (r - target) / interval;
    var b := (r' - target) / interval;
    assert r == target + interval * a;
    assert r' == target + interval * b;
    assert r - r' == interval * (a - b);
    if a - b >= 1 { MulMonotone(interval, 1, a - b); }
    if a - b <= -1 { MulMonotone(interval, a - b, -1); }
  }

  /** `k` passes of `target_nsec = target_nsec + interval_nsec`. */
  function CatchUpPasses(target: int, interval: int, k: nat): (r: int)
    ensures r == target + k * interval
    decreases k
  {
    if k == 0 then target
    else
      var r := CatchUpPasses(target + interval, interval, k - 1);
      assert (k - 1) * interval + interval == k * interval;
      r
  }

  /** The catch-up loop's result is a whole number of its passes. */
  lemma CatchUpIsPasses(target: int, now: int, interval: int)
    requires interval > 0
    ensures var r := CatchUp(target, now, interval);
      (r - target) / interval >= 0 && r == CatchUpPasses(target, interval, (r - target) / interval)
  {
    var r := CatchUp(target, now, interval);
    assert r - target == interval * ((r - target) / interval);
  }

  /**
   * One pass of the coarse wait for the reading `now`, as the source writes
   * it. Before the window end the target catches up with `now` and the
   * budget is the gap minus the margin, which the catch-up keeps at least
   * `-Margin` (the negative budget the source worries about). At or past
   * the window end the target returns to the start offset of the next
   * second. Unless the interval divides the second, the catch-up can pass
   * the end of the second, a target no reading ever reaches.
   */
  function CoarseStepAsWritten(s: TimingState, now: int): (r: TimingState)
    requires s.WellFormed()
    ensures r.SameSchedule(s) && r.WellFormed()
    ensures now < s.end ==>
      && r.target >= now && r.target >= s.target
      && (r.target - s.target) % s.interval == 0
      && (r.target > s.target ==> r.target - s.interval < now)
      && r.wait + Margin == r.target - now
      && r.wait >= -Margin
    ensures now >= s.end ==>
      && r.target == s.start
      && r.wait + Margin == NsPerSec - now + s.start
      && r.wait <= s.interval - Margin
    ensures IsClockSample(now) && now >= s.end ==> r.wait > s.start - Margin
    ensures s.OnGrid() ==> r.OnGrid()
  {
    if now < s.end then
      var t := CatchUp(s.target, now, s.interval);
      assert s.OnGrid() ==> (t - s.start) % s.interval == 0 by {
        if s.OnGrid() {
          ModSum(t - s.target, s.target - s.start, s.interval);
        }
      }
      s.(target := t, wait := t - now - Margin)
    else
      s.(target := s.start, wait := NsPerSec - now + s.start - Margin)
  }

  /**
   * One pass of the coarse wait with the catch-up's overshoot corrected: a
   * target caught up to the end of the second or beyond is replaced by the
   * start offset of the next second, with the budget the window-end branch
   * computes. Otherwise the pass is the one the source writes, and the
   * target stays inside the second.
   */
  function CoarseStep(s: TimingState, now: int): (r: TimingState)
    requires s.WellFormed()
    ensures r.SameSchedule(s) && r.WellFormed()
    ensures now >= s.end || CoarseStepAsWritten(s, now).target < NsPerSec ==> r == CoarseStepAsWritten(s, now)
    ensures now < s.end && CoarseStepAsWritten(s, now).target >= NsPerSec ==>
      r.target == s.start && r.wait + Margin == NsPerSec - now + s.start
    ensures s.start < NsPerSec ==> r.target < NsPerSec
    ensures s.OnGrid() ==> r.OnGrid()
  {
    var w := CoarseStepAsWritten(s, now);
    if now < s.end && w.target >= NsPerSec then
      var r := s.(target := s.start, wait := NsPerSec - now + s.start - Margin);
      assert r.OnGrid() by {
        DivModUnique(0, s.interval, 0, 0);
      }
      r
    else
      assert s.start < NsPerSec ==> w.target < NsPerSec;
      w
  }

  /**
   * At 34.48 frames per second (an interval of 29_002_320 ns) and phase
   * 248.3 the start offset is 20_003_544 and the window end 991_001_224.
   * A reading of 978.2 ms catches the target up past the last instant of
   * the second (977_080_104) to 1_006_082_424, and a second reading of
   * 987.15 ms leaves a budget within the margin, so the coarse wait exits.
   * The next reading is before the window end, so the normal busy-wait
   * runs, and no reading of the second ever reaches its target: the loop
   * spins forever. The corrected pass aims at the next second's start
   * offset instead.
   */
  lemma CatchUpOvershootsTheSecond()
    ensures var s := InitialState(29_002_320, 248.3);
      var first := CoarseStepAsWritten(s, 978_200_000);
      var second := CoarseStepAsWritten(first, 987_150_000);
      && s.start == 20_003_544 && s.end == 991_001_224
      && first.target == 1_006_082_424 && CoarseSleep(first.wait).Some?
      && second.target == 1_006_082_424 && CoarseSleep(second.wait).None?
      && FineCaseOf(second, 987_160_000) == Normal
      && (forall now :: IsClockSample(now) ==> !FineDone(second, Normal, now))
      && CoarseStep(s, 978_200_000).target == s.start
  {
    var s := InitialState(29_002_320, 248.3);
    assert TruncReal(248.3 * 10.0) == 2483;
    assert s.start == 20_003_544;
    CatchUpIsUnique(20_003_544, 978_200_000, 29_002_320, 1_006_082_424);
  }

  /**
   * With the corrected pass, a start offset inside the second keeps the
   * target the coarse wait aims at inside the second, so the normal
   * busy-wait ends at the target itself and at every later reading of
   * the second.
   */
  lemma AimedTargetIsReachable(s: TimingState, samples: seq<int>)
    requires s.WellFormed() && 0 <= s.start < NsPerSec && s.target >= 0
    ensures CoarseWait(s, samples).CoarseDone? ==>
      var w := CoarseWait(s, samples).state;
      && IsClockSample(w.target)
      && forall now :: w.target <= now < NsPerSec ==> FineDone(w, Normal, now)
  {
  }

  /**
   * The sleep the coarse wait requests for a budget: half of it, and only
   * when it exceeds the margin, so a negative budget never reaches the
   * sleep call and every sleep requested is at least half the margin.
   */
  function CoarseSleep(wait: int): (r: Option<int>)
    ensures r.Some? <==> wait > Margin
    ensures r.Some? ==> Margin / 2 <= r.value && 2 * r.value <= wait <= 2 * r.value + 1
  {
    if wait > Margin then Some(wait / 2) else None
  }

  /** What the coarse wait ends with, if the readings given suffice. */
  datatype CoarseOutcome =
    | CoarseStalled
    | CoarseDone(state: TimingState, used: nat, sleeps: seq<int>)

  /** The state after the passes for readings `0..i`, with no exit test. */
  function PassState(s: TimingState, samples: seq<int>, i: nat): (r: TimingState)
    requires s.WellFormed() && i < |samples|
    ensures r.SameSchedule(s) && r.WellFormed()
    decreases i
  {
    if i == 0 then CoarseStep(s, samples[0])
    else PassState(CoarseStep(s, samples[0]), samples[1..], i - 1)
  }

  /**
   * The `do { ... } while (wait_nsec > 1e7)` loop, reading one clock sample
   * per pass. It stops at the first pass whose budget is within the margin,
   * and stalls only when no pass's budget is; every earlier pass slept for
   * half its budget. On exit the trigger instant is at most twice the
   * margin ahead of the last reading, whichever side of the window end that
   * reading fell on, and a target on the grid of the start offset stays on
   * it.
   */
  function CoarseWait(s: TimingState, samples: seq<int>): (r: CoarseOutcome)
    requires s.WellFormed()
    ensures r.CoarseDone? ==>
      && 1 <= r.used <= |samples|
      && |r.sleeps| == r.used - 1
      && r.state == PassState(s, samples, r.used - 1)
      && r.state.wait <= Margin
    ensures r.CoarseDone? ==> forall i :: 0 <= i < r.used - 1 ==>
      PassState(s, samples, i).wait > Margin && r.sleeps[i] == PassState(s, samples, i).wait / 2
    ensures r.CoarseDone? ==> forall i :: 0 <= i < |r.sleeps| ==> r.sleeps[i] >= Margin / 2
    ensures r.CoarseStalled? ==> forall i :: 0 <= i < |samples| ==> PassState(s, samples, i).wait > Margin
    ensures r.CoarseDone? ==> r.state.SameSchedule(s) && r.state.WellFormed()
    ensures r.CoarseDone? ==>
      || (samples[r.used - 1] < s.end && samples[r.used - 1] <= r.state.target <= samples[r.used - 1] + 2 * Margin)
      || (r.state.target == s.start && NsPerSec + s.start - samples[r.used - 1] <= 2 * Margin)
    ensures r.CoarseDone? && samples[r.used - 1] >= s.end ==>
      r.state.target == s.start && NsPerSec + s.start - samples[r.used - 1] <= 2 * Margin
    ensures r.CoarseDone? && s.target >= 0 && s.start >= 0 ==> r.state.target >= 0
    ensures r.CoarseDone? && s.OnGrid() ==> r.state.OnGrid()
    ensures r.CoarseDone? && s.start < NsPerSec ==> r.state.target < NsPerSec
    decreases |samples|
  {
    if |samples| == 0 then CoarseStalled
    else
      var next := CoarseStep(s, samples[0]);
      var tail := samples[1..];
      match CoarseSleep(next.wait)
      case None => CoarseDone(next, 1, [])
      case Some(nap) =>
        assert forall i :: 1 <= i < |samples| ==> PassState(s, samples, i) == PassState(next, tail, i - 1);
        match CoarseWait(next, tail)
        case CoarseStalled => CoarseStalled
        case CoarseDone(st, used, sleeps) =>
          assert tail[used - 1] == samples[used];
          var all := [nap] + sleeps;
          assert forall i :: 1 <= i < |all| ==> all[i] == sleeps[i - 1];
          CoarseDone(st, used + 1, all)
  }

  /** Which of the three busy-wait loops runs, chosen by the first reading. */
  datatype FineCase = Degenerate | Normal | Wrap

  function FineCaseOf(s: TimingState, now: int): FineCase
  {
    if s.start == s.end then Degenerate
    else if now < s.end then Normal
    else Wrap
  }

  /** The negation of each busy-wait loop's guard: the reading that ends it. */
  predicate FineDone(s: TimingState, c: FineCase, now: int)
  {
    match c
    case Degenerate => now <= Margin
    case Normal => now >= s.target
    case Wrap => s.start <= now <= s.end
  }

  /**
   * True when reading `k` is where the busy-wait exits: the first reading
   * picks the loop, reading `k` ends it, and no earlier reading does.
   */
  predicate IsExitReading(s: TimingState, samples: seq<int>, k: nat)
  {
    && k < |samples|
    && FineDone(s, FineCaseOf(s, samples[0]), samples[k])
    && forall j :: 0 <= j < k ==> !FineDone(s, FineCaseOf(s, samples[0]), samples[j])
  }

  /** The index of the first reading from `i` on that ends the busy-wait. */
  function SpinFrom(s: TimingState, c: FineCase, samples: seq<int>, i: nat): (r: Option<nat>)
    requires i <= |samples|
    ensures r.Some? ==> i <= r.value < |samples| && FineDone(s, c, samples[r.value])
    ensures r.Some? ==> forall j :: i <= j < r.value ==> !FineDone(s, c, samples[j])
    ensures r.None? ==> forall j :: i <= j < |samples| ==> !FineDone(s, c, samples[j])
    decreases |samples| - i
  {
    if i == |samples| then None
    else if FineDone(s, c, samples[i]) then Some(i)
    else SpinFrom(s, c, samples, i + 1)
  }

  /**
   * The busy-wait: the first reading picks the loop, and the loop exits at
   * the first reading (the first one included) that satisfies it. With an
   * empty window the exit reading is within the margin after the top of the
   * second whatever the start offset; otherwise it is at or past the
   * target, or back inside [start, end] after the second wrapped.
   */
  function FineWait(s: TimingState, samples: seq<int>): (r: Option<nat>)
    ensures r.Some? ==> r.value < |samples|
    ensures r.Some? && s.start == s.end ==> samples[r.value] <= Margin
    ensures r.Some? && s.start != s.end && samples[0] < s.end ==> samples[r.value] >= s.target
    ensures r.Some? && s.start != s.end && samples[0] >= s.end ==> s.start <= samples[r.value] <= s.end
    ensures r.Some? ==> forall j :: 0 <= j < r.value ==> !FineDone(s, FineCaseOf(s, samples[0]), samples[j])
    ensures r.None? ==> forall j :: 0 <= j < |samples| ==> !FineDone(s, FineCaseOf(s, samples[0]), samples[j])
  {
    if |samples| == 0 then None
    else SpinFrom(s, FineCaseOf(s, samples[0]), samples, 0)
  }

  /**
   * The advance after a trigger: one interval later, or back to the start
   * offset when that would reach the next second. From a non-negative
   * target with the start offset inside the second, the new target is
   * inside the second too.
   */
  function Advance(s: TimingState): (r: TimingState)
    ensures r.SameSchedule(s) && r.wait == s.wait
    ensures r.target == s.start || r.target == s.target + s.interval
    ensures r.target == s.start <== s.target + s.interval >= NsPerSec
    ensures s.target + s.interval < NsPerSec ==> r.target == s.target + s.interval
    ensures r.target < NsPerSec || r.target == s.start
    ensures 0 <= s.start < NsPerSec && s.target >= 0 && s.interval > 0 ==> 0 <= r.target < NsPerSec
    ensures s.OnGrid() ==> r.OnGrid()
  {
    var next := if s.target + s.interval >= NsPerSec then s.start else s.target + s.interval;
    assert s.OnGrid() ==> (next - s.start) % s.interval == 0 by {
      if s.OnGrid() && next != s.start {
        ModAddPeriod(s.target - s.start, s.interval);
      }
    }
    s.(target := next)
  }

  /**
   * The state after `n` advances with no waiting in between; a helper
   * for stating `AdvanceWalksTheSecond`.
   */
  function AdvanceTimes(s: TimingState, n: nat): (r: TimingState)
    ensures r.SameSchedule(s)
    decreases n
  {
    if n == 0 then s else Advance(AdvanceTimes(s, n - 1))
  }

  /**
   * Starting from the start offset, successive advances visit the start
   * offset plus 0, 1, 2, ... intervals while that stays inside the second,
   * and the advance after the last of them returns to the start offset: no
   * trigger instant of the second is skipped or repeated.
   */
  lemma {:induction false} AdvanceWalksTheSecond(s: TimingState, j: nat)
    requires s.interval > 0 && s.target == s.start
    requires s.start + j * s.interval < NsPerSec
    ensures AdvanceTimes(s, j).target == s.start + j * s.interval
    ensures s.start + (j + 1) * s.interval < NsPerSec ==>
      AdvanceTimes(s, j + 1).target == s.start + (j + 1) * s.interval
    ensures s.start + (j + 1) * s.interval >= NsPerSec ==> AdvanceTimes(s, j + 1).target == s.start
    decreases j
  {
    assert (j + 1) * s.interval == j * s.interval + s.interval;
    if j > 0 {
      assert j * s.interval == (j - 1) * s.interval + s.interval;
      AdvanceWalksTheSecond(s, j - 1);
    }
    assert AdvanceTimes(s, j + 1) == Advance(AdvanceTimes(s, j));
  }

  /**
   * When the interval divides the second and the start offset lies within
   * the first interval, the advance is addition modulo one second along the
   * grid of the start offset (ten frames per second from phase 0 gives 0,
   * 1e8, 2e8, ...; a 250 ms interval from 50 ms goes from 800 ms to 50 ms).
   */
  lemma AdvanceIsModuloOnGrid(s: TimingState, k: nat)
    requires 0 <= s.start < s.interval && NsPerSec % s.interval == 0
    requires s.target == s.start + k * s.interval && s.target < NsPerSec
    ensures Advance(s).target == (s.target + s.interval) % NsPerSec
  {
    var m := s.interval;
    var n := NsPerSec / m;
    assert NsPerSec == m * n;
    assert k < n by {
      if k >= n {
        MulMonotone(m, n, k);
      }
    }
    if k + 1 < n {
      MulMonotone(m, k + 2, n);
      assert m * (k + 2) == m * k + 2 * m;
      assert s.target + m < NsPerSec;
      DivModUnique(s.target + m, NsPerSec, 0, s.target + m);
    } else {
      assert m * n == m * k + m;
      assert s.target + m == s.start + NsPerSec;
      DivModUnique(s.start + NsPerSec, NsPerSec, 1, s.start);
    }
  }

  /**
   * When the interval does not divide the second the advance is not
   * addition modulo one second: with a 300 ms interval from phase 0, the
   * target after 900 ms (on the grid 0, 300, 600, 900 ms) returns to 0,
   * not to 200 ms.
   */
  lemma AdvanceIsNotModuloForUnevenInterval()
    ensures var s := TimingState(0, 700_000_000, 300_000_000, 900_000_000, 0);
      Advance(s).target == 0 && (s.target + s.interval) % NsPerSec == 200_000_000
  {
  }
}

=== FILE: setup.dfy ===
/**
 * Construction of the trigger node (`SensorTrigger::SensorTrigger`) and the
 * derivation of the trigger interval from the frame rate. Parameter loading
 * and the YAML file are abstracted to a `Params` value and a `Mapping`; the
 * GPIO driver's claim of a line is an opaque predicate on the pins.
 */
module Setup {
  import opened Wrappers
  import opened Timing
  import opened GpioMapping

  /** The node's parameters, as read from the parameter server. */
  datatype Params = Params(frameRate: real, phase: real, gpioName: string, pulseWidthMs: int)

  /** The causes of `exit(1)` during construction. */
  datatype SetupError =
    | NoValidGpio       // the name has no entry with both chip and line
    | GpioInitFailed    // the driver refused to claim the line as an output
    | FrameRateTooLow   // fewer than one frame per second
    | FrameRateTooHigh  // so many frames per second that the interval truncates to 0

  /** A constructed node: its parameters and the resolved output line. */
  datatype Trigger = Trigger(params: Params, pins: Pins)

  /** The lowest frame rate the node accepts (the literal `1.0`). */
  const MinFrameRate: real := 1.0

  /** The highest frame rate whose interval is still at least 1 ns. */
  const MaxFrameRate: real := 1_000_000_000.0

  /**
   * `(int64_t)(1e9 / fps_)`: the trigger period in whole nanoseconds,
   * truncated. Only reached once construction has rejected `fps_ < 1.0`.
   */
  function IntervalNs(frameRate: real): (r: int)
    requires frameRate >= MinFrameRate
    ensures 0 <= r <= NsPerSec
    ensures r as real * frameRate <= NsPerSec as real < (r + 1) as real * frameRate
    ensures r >= 1 <==> frameRate <= MaxFrameRate
  {
    var q := NsPerSec as real / frameRate;
    assert q <= NsPerSec as real by {
      assert q * frameRate == NsPerSec as real;
    }
    q.Floor
  }

  /**
   * The constructor as written: look the GPIO name up, claim the line, and
   * only then reject a frame rate below one per second. Any frame rate of
   * at least 1.0 is accepted, however large.
   */
  function ConstructAsWritten(p: Params, mapping: Mapping, held: Pins, claim: Pins -> bool): (r: Result<Trigger, SetupError>)
    ensures r == Failure(NoValidGpio) <==> !HasValidEntry(mapping, p.gpioName)
    ensures r == Failure(GpioInitFailed) <==>
      HasValidEntry(mapping, p.gpioName) && !claim(ResolveGpio(mapping, p.gpioName, held).1)
    ensures r == Failure(FrameRateTooLow) <==>
      HasValidEntry(mapping, p.gpioName) && claim(ResolveGpio(mapping, p.gpioName, held).1) && p.frameRate < MinFrameRate
    ensures r.Success? <==>
      HasValidEntry(mapping, p.gpioName) && claim(ResolveGpio(mapping, p.gpioName, held).1) && p.frameRate >= MinFrameRate
    ensures r.Success? ==>
      && r.value.params == p
      && r.value.pins == Pins(mapping[p.gpioName].chip.value, mapping[p.gpioName].line.value)
  {
    var (found, pins) := ResolveGpio(mapping, p.gpioName, held);
    if !found then Failure(NoValidGpio)
    else if !claim(pins) then Failure(GpioInitFailed)
    else if p.frameRate < MinFrameRate then Failure(FrameRateTooLow)
    else Success(Trigger(p, pins))
  }

  /**
   * The constructor with the missing upper bound: a frame rate above 1e9
   * is rejected like one below 1, so every constructed node has an interval
   * of at least one nanosecond and the catch-up loop always makes progress.
   */
  function Construct(p: Params, mapping: Mapping, held: Pins, claim: Pins -> bool): (r: Result<Trigger, SetupError>)
    ensures r.Success? ==> p.frameRate >= MinFrameRate && 1 <= IntervalNs(p.frameRate) <= NsPerSec
    ensures r.Success? <==> ConstructAsWritten(p, mapping, held, claim).Success? && p.frameRate <= MaxFrameRate
    ensures r == Failure(FrameRateTooHigh) <==>
      ConstructAsWritten(p, mapping, held, claim).Success? && p.frameRate > MaxFrameRate
    ensures !ConstructAsWritten(p, mapping, held, claim).Success? ==> r == ConstructAsWritten(p, mapping, held, claim)
    ensures r.Success? ==> r == ConstructAsWritten(p, mapping, held, claim)
  {
    match ConstructAsWritten(p, mapping, held, claim)
    case Failure(e) => Failure(e)
    case Success(t) => if p.frameRate > MaxFrameRate then Failure(FrameRateTooHigh) else Success(t)
  }

  /**
   * A frame rate below 1 is reported only after the line has been claimed:
   * when the claim fails, the error is the GPIO one whatever the rate.
   */
  lemma LowFrameRateCheckedAfterClaim(p: Params, mapping: Mapping, held: Pins, claim: Pins -> bool)
    requires HasValidEntry(mapping, p.gpioName)
    requires !claim(Pins(mapping[p.gpioName].chip.value, mapping[p.gpioName].line.value))
    ensures Construct(p, mapping, held, claim) == Failure(GpioInitFailed)
  {
  }
}

=== FILE: timing.dfy ===
/**
 * Constants and integer helpers shared by the trigger model.
 *
 * The node works on nanosecond-of-second clock readings held in `int64_t`
 * variables; the literals `1e9` and `1e7` are doubles, but every value they
 * meet stays far below 2^53, so they are exact integers here.
 */
module Timing {

  /** Nanoseconds in one second (the literal `1e9`). */
  const NsPerSec: int := 1_000_000_000

  /** The 10 ms margin reserved for the busy-wait (the literal `1e7`). */
  const Margin: int := 10_000_000

  /** Nanoseconds in one millisecond (the literal `1e6`). */
  const NsPerMs: int := 1_000_000

  const Int32Min: int := -0x8000_0000
  const Int32Max: int := 0x7fff_ffff

  predicate InInt32(x: int) { Int32Min <= x <= Int32Max }

  /** A reading of the `nsec` field of the clock: always within one second. */
  predicate IsClockSample(now: int) { 0 <= now < NsPerSec }

  function AbsReal(x: real): (r: real)
    ensures r >= 0.0
    ensures r == x || r == -x
  {
    if x < 0.0 then -x else x
  }

  /**
   * Integer division rounding toward zero, as C++ `/` on integers and the
   * `(int64_t)` cast of a double quotient both do (Dafny's own `/` is
   * Euclidean and differs for negative dividends).
   */
  function TruncDiv(a: int, b: int): (q: int)
    requires b > 0
    ensures a >= 0 ==> 0 <= q * b <= a < q * b + b
    ensures a < 0 ==> q * b - b < a <= q * b <= 0
  {
    if a >= 0 then
      EuclidBounds(a, b);
      a / b
    else
      EuclidBounds(-a, b);
      -((-a) / b)
  }

  /** The quotient of a non-negative dividend brackets it. */
  lemma EuclidBounds(a: int, b: int)
    requires a >= 0 && b > 0
    ensures 0 <= (a / b) * b <= a < (a / b) * b + b
    ensures -(a / b) * b == -((a / b) * b)
  {
    var q, m := a / b, a % b;
    assert a == q * b + m && 0 <= m < b;
    assert q >= 0;
    assert -q * b == -(q * b);
  }

  /** Conversion of a real to an integer rounding toward zero (`(int64_t)x`). */
  function TruncReal(x: real): (r: int)
    ensures x >= 0.0 ==> r >= 0 && r as real <= x < r as real + 1.0
    ensures x < 0.0 ==> r <= 0 && r as real - 1.0 < x <= r as real
  {
    if x >= 0.0 then x.Floor else -((-x).Floor)
  }

  lemma MulMonotone(m: int, x: int, y: int)
    requires m > 0 && x <= y
    ensures m * x <= m * y
  {
  }

  /** Euclidean quotient and remainder are the only such pair. */
  lemma DivModUnique(x: int, m: int, q: int, r: int)
    requires m > 0 && x == m * q + r && 0 <= r < m
    ensures x / m == q && x % m == r
  {
    var q', r' := x / m, x % m;
    assert x == m * q' + r';
    if q < q' { MulMonotone(m, q + 1, q'); }
    if q' < q { MulMonotone(m, q' + 1, q); }
  }

  lemma ModAddPeriod(d: int, m: int)
    requires m > 0
    ensures (d + m) % m == d % m
  {
    DivModUnique(d + m, m, d / m + 1, d % m);
  }

  /** A sum of two multiples of `m` is a multiple of `m`. */
  lemma ModSum(a: int, b: int, m: int)
    requires m > 0 && a % m == 0 && b % m == 0
    ensures (a + b) % m == 0
  {
    var qa, qb := a / m, b / m;
    assert a == m * qa && b == m * qb;
    assert a + b == m * (qa + qb);
    DivModUnique(a + b, m, qa + qb, 0);
  }
}

=== FILE: trigger_loop.dfy ===
/**
 * One iteration of the trigger loop of `SensorTrigger::run` and the loop
 * itself: wait coarsely, busy-wait, raise the line, stamp and publish the
 * trigger time, lower the line, advance the target, and stop for good if
 * either line transition failed.
 *
 * The GPIO driver's answers to the two transitions are inputs, as are all
 * clock readings. `ros::ok()` is modelled by the number of iterations
 * supplied; `exit(1)` by the absorbing `Failed` state.
 */
module TriggerLoop {
  import opened Wrappers
  import opened Timing
  import opened GpioMapping
  import opened Setup
  import opened Schedule

  /** The published `std_msgs/Time` value: an int32 and a uint32 field. */
  datatype TriggerTime = TriggerTime(sec: int, nsec: int)

  /**
   * The stamp published for a trigger. The nanoseconds are the busy-wait's
   * exit reading, not corrected for the pulse; the seconds are the
   * post-pulse reading minus the pulse width, divided by 1e9 and truncated.
   * Because that reading is itself only the nanosecond field, the seconds
   * are never positive, and are 0 for every pulse shorter than a second.
   */
  function TriggerStamp(fineNow: int, postPulseNow: int, pulseWidthMs: int): (e: TriggerTime)
    requires IsClockSample(fineNow) && IsClockSample(postPulseNow) && InInt32(pulseWidthMs)
    ensures e.nsec == fineNow
    ensures InInt32(e.sec)
    ensures pulseWidthMs >= 0 ==> e.sec <= 0
    ensures pulseWidthMs >= 0 ==> (e.sec == 0 <==> postPulseNow - pulseWidthMs * NsPerMs > -NsPerSec)
    ensures 0 <= pulseWidthMs < 1000 ==> e.sec == 0
  {
    var pulseWidth := pulseWidthMs * NsPerMs;
    TriggerTime(TruncDiv(postPulseNow - pulseWidth, NsPerSec), fineNow)
  }

  /** The inputs one iteration consumes. */
  datatype CycleInput = CycleInput(
    coarse: seq<int>,   // readings taken by the coarse wait, one per pass
    fine: seq<int>,     // readings taken by the busy-wait, the first one included
    toHigh: bool,       // the driver's answer to raising the line
    postPulse: int,     // the reading taken after the pulse-width sleep
    toLow: bool)        // the driver's answer to lowering the line

  predicate ValidInput(input: CycleInput)
  {
    && (forall i :: 0 <= i < |input.coarse| ==> IsClockSample(input.coarse[i]))
    && (forall i :: 0 <= i < |input.fine| ==> IsClockSample(input.fine[i]))
    && IsClockSample(input.postPulse)
  }

  /**
   * How an iteration ends. `Stalled` means the readings supplied ran out
   * before a wait loop exited (the real loop would still be waiting).
   * `Fired` carries the published stamp, the state the coarse wait ended
   * with (whose target is the instant aimed at), the index of the
   * busy-wait's exit reading, the advanced state and whether a line
   * transition failed.
   */
  datatype CycleOutcome =
    | Stalled
    | Fired(event: TriggerTime, waited: TimingState, exit: nat, next: TimingState, fatal: bool)

  /**
   * One iteration. The coarse wait fixes the target; the stamp's
   * nanoseconds are the first busy-wait reading that ends the loop chosen
   * for that target. The stamp is published and the target advanced before
   * the transition results are examined, so a failing iteration still
   * publishes its stamp.
   */
  function Cycle(s: TimingState, pulseWidthMs: int, input: CycleInput): (r: CycleOutcome)
    requires s.WellFormed() && ValidInput(input) && InInt32(pulseWidthMs)
    ensures r.Fired? ==>
      && CoarseWait(s, input.coarse).CoarseDone?
      && r.waited == CoarseWait(s, input.coarse).state
      && IsExitReading(r.waited, input.fine, r.exit)
      && r.event.nsec == input.fine[r.exit]
    ensures r.Fired? ==> (r.fatal <==> !(input.toHigh && input.toLow))
    ensures r.Fired? ==> InInt32(r.event.sec)
    ensures r.Fired? && 0 <= pulseWidthMs < 1000 ==> r.event.sec == 0
    ensures r.Fired? && s.start == s.end ==> r.event.nsec <= Margin
    ensures r.Fired? && s.start != s.end && input.fine[0] < s.end ==> r.event.nsec >= r.waited.target
    ensures r.Fired? && s.start != s.end && input.fine[0] >= s.end ==> s.start <= r.event.nsec <= s.end
    ensures r.Fired? ==> r.waited.SameSchedule(s) && r.next.SameSchedule(s) && r.next.WellFormed()
    ensures r.Fired? ==> r.next == Advance(r.waited)
    // The next two follow from `Advance`'s contract; they spell out the
    // advance rule for readers of this iteration alone.
    ensures r.Fired? ==> r.next.target == r.waited.target + s.interval || r.next.target == s.start
    ensures r.Fired? && r.waited.target + s.interval >= NsPerSec ==> r.next.target == s.start
    ensures r.Fired? && 0 <= s.start < NsPerSec && s.target >= 0 ==>
      0 <= r.waited.target < NsPerSec && 0 <= r.next.target < NsPerSec
    ensures r.Fired? && s.OnGrid() ==> r.waited.OnGrid() && r.next.OnGrid()
  {
    match CoarseWait(s, input.coarse)
    case CoarseStalled => Stalled
    case CoarseDone(waited, _, _) =>
      match FineWait(waited, input.fine)
      case None => Stalled
      case Some(k) =>
        var event := TriggerStamp(input.fine[k], input.postPulse, pulseWidthMs);
        Fired(event, waited, k, Advance(waited), !(input.toHigh && input.toLow))
  }

  /**
   * An iteration aims at the target the coarse wait ends with, stamps the
   * busy-wait's exit reading (the first reading that ends the loop chosen
   * for that target), and stalls only when the coarse wait or the
   * busy-wait runs out of readings.
   */
  lemma CycleFollowsWaits(s: TimingState, pulseWidthMs: int, input: CycleInput)
    requires s.WellFormed() && ValidInput(input) && InInt32(pulseWidthMs)
    ensures var r := Cycle(s, pulseWidthMs, input);
      var coarse := CoarseWait(s, input.coarse);
      && (r.Stalled? <==> coarse.CoarseStalled? || FineWait(coarse.state, input.fine).None?)
      && (r.Fired? ==> coarse.CoarseDone? && r.waited == coarse.state && FineWait(coarse.state, input.fine) == Some(r.exit))
      && (r.Fired? ==> IsExitReading(r.waited, input.fine, r.exit) && r.event.nsec == input.fine[r.exit])
  {
  }

  /** The loop's state between iterations; `Failed` is `exit(1)`. */
  datatype LoopState = Running(timing: TimingState) | Failed

  /** What a run of the loop published and where it ended. */
  datatype RunResult = RunResult(events: seq<TriggerTime>, final: LoopState)

  predicate ValidInputs(inputs: seq<CycleInput>)
  {
    forall i :: 0 <= i < |inputs| ==> ValidInput(inputs[i])
  }

  /**
   * The loop over the supplied iterations. It publishes one stamp per
   * iteration, the first being the first iteration's, and stops early only
   * when an iteration stalls or a transition fails. A failed loop never
   * resumes, and it fails right after publishing the stamp of the
   * iteration whose transition failed. (The invariants it keeps between
   * iterations are the lemmas below.)
   */
  function Run(st: LoopState, pulseWidthMs: int, inputs: seq<CycleInput>): (r: RunResult)
    requires st.Running? ==> st.timing.WellFormed()
    requires ValidInputs(inputs) && InInt32(pulseWidthMs)
    ensures |r.events| <= |inputs|
    ensures st.Failed? ==> r == RunResult([], Failed)
    ensures st.Running? && r.final.Failed? ==>
      |r.events| >= 1 && !(inputs[|r.events| - 1].toHigh && inputs[|r.events| - 1].toLow)
    ensures st.Running? && r.final.Running? ==> r.final.timing.SameSchedule(st.timing) && r.final.timing.WellFormed()
    ensures st.Running? && |inputs| > 0 && Cycle(st.timing, pulseWidthMs, inputs[0]).Fired? ==>
      |r.events| >= 1 && r.events[0] == Cycle(st.timing, pulseWidthMs, inputs[0]).event
    decreases |inputs|
  {
    if |inputs| == 0 then RunResult([], st)
    else
      match st
      case Failed => RunResult([], Failed)
      case Running(s) =>
        var c := Cycle(s, pulseWidthMs, inputs[0]);
        match c
        case Stalled => RunResult([], st)
        case Fired(event, _, _, next, fatal) =>
          if fatal then RunResult([event], Failed)
          else
            var tail := inputs[1..];
            assert ValidInputs(tail);
            var rest := Run(Running(next), pulseWidthMs, tail);
            assert rest.final.Failed? ==> inputs[|rest.events|] == tail[|rest.events| - 1];
            RunResult([event] + rest.events, rest.final)
  }

  /**
   * A loop that is still running but published fewer stamps than it was
   * given iterations stopped because the next iteration stalled.
   */
  lemma {:induction false} RunStopsOnStall(st: LoopState, pulseWidthMs: int, inputs: seq<CycleInput>)
    requires st.Running? && st.timing.WellFormed() && ValidInputs(inputs) && InInt32(pulseWidthMs)
    ensures var r := Run(st, pulseWidthMs, inputs);
      r.final.Running? && |r.events| < |inputs| ==> Cycle(r.final.timing, pulseWidthMs, inputs[|r.events|]).Stalled?
    decreases |inputs|, 1
  {
    if |inputs| > 0 {
      var c := Cycle(st.timing, pulseWidthMs, inputs[0]);
      if c.Fired? && !c.fatal {
        StalledAfterFirst(st, pulseWidthMs, inputs);
      } else if c.Stalled? {
        assert Run(st, pulseWidthMs, inputs) == RunResult([], st);
      } else {
        assert Run(st, pulseWidthMs, inputs) == RunResult([c.event], Failed);
      }
    }
  }

  /** The step of `RunStopsOnStall` past an iteration that succeeded. */
  lemma {:induction false} StalledAfterFirst(st: LoopState, pulseWidthMs: int, inputs: seq<CycleInput>)
    requires st.Running? && st.timing.WellFormed() && ValidInputs(inputs) && InInt32(pulseWidthMs)
    requires |inputs| > 0
    ensures var c := Cycle(st.timing, pulseWidthMs, inputs[0]);
      var r := Run(st, pulseWidthMs, inputs);
      c.Fired? && !c.fatal && r.final.Running? && |r.events| < |inputs| ==>
        Cycle(r.final.timing, pulseWidthMs, inputs[|r.events|]).Stalled?
    decreases |inputs|, 0
  {
    var c := Cycle(st.timing, pulseWidthMs, inputs[0]);
    if c.Fired? && !c.fatal {
      var tail := inputs[1..];
      assert ValidInputs(tail);
      RunStopsOnStall(Running(c.next), pulseWidthMs, tail);
      RunAfterSuccess(st, pulseWidthMs, inputs);
      var rest := Run(Running(c.next), pulseWidthMs, tail);
      if rest.final.Running? && |rest.events| < |tail| {
        assert inputs[|rest.events| + 1] == tail[|rest.events|];
      }
    }
  }

  /** An iteration that succeeded publishes its stamp ahead of the rest of the run. */
  lemma RunAfterSuccess(st: LoopState, pulseWidthMs: int, inputs: seq<CycleInput>)
    requires st.Running? && st.timing.WellFormed() && ValidInputs(inputs) && InInt32(pulseWidthMs)
    requires |inputs| > 0
    ensures var c := Cycle(st.timing, pulseWidthMs, inputs[0]);
      c.Fired? && !c.fatal ==>
        var rest := Run(Running(c.next), pulseWidthMs, inputs[1..]);
        Run(st, pulseWidthMs, inputs) == RunResult([c.event] + rest.events, rest.final)
  {
    assert ValidInputs(inputs[1..]);
  }

  /**
   * Between iterations the target stays on the grid of the start offset,
   * and within the second when it started there.
   */
  lemma {:induction false} RunKeepsTarget(st: LoopState, pulseWidthMs: int, inputs: seq<CycleInput>)
    requires st.Running? && st.timing.WellFormed() && ValidInputs(inputs) && InInt32(pulseWidthMs)
    ensures var r := Run(st, pulseWidthMs, inputs);
      && (r.final.Running? && st.timing.OnGrid() ==> r.final.timing.OnGrid())
      && (r.final.Running? && 0 <= st.timing.start < NsPerSec && 0 <= st.timing.target < NsPerSec ==>
            0 <= r.final.timing.target < NsPerSec)
    decreases |inputs|
  {
    if |inputs| > 0 {
      var c := Cycle(st.timing, pulseWidthMs, inputs[0]);
      if c.Fired? && !c.fatal {
        var tail := inputs[1..];
        assert ValidInputs(tail);
        assert Run(st, pulseWidthMs, inputs).final == Run(Running(c.next), pulseWidthMs, tail).final;
        RunKeepsTarget(Running(c.next), pulseWidthMs, tail);
      }
    }
  }

  /**
   * Every iteration that published a stamp had both transitions succeed,
   * except the failing one that ended the loop.
   */
  lemma {:induction false} RunTransitionsSucceeded(st: LoopState, pulseWidthMs: int, inputs: seq<CycleInput>, i: nat)
    requires st.Running? && st.timing.WellFormed() && ValidInputs(inputs) && InInt32(pulseWidthMs)
    ensures var r := Run(st, pulseWidthMs, inputs);
      i < |r.events| && (r.final.Running? || i < |r.events| - 1) ==> inputs[i].toHigh && inputs[i].toLow
    decreases i
  {
    if |inputs| > 0 {
      var c := Cycle(st.timing, pulseWidthMs, inputs[0]);
      if c.Stalled? {
        assert Run(st, pulseWidthMs, inputs) == RunResult([], st);
      } else if c.fatal {
        assert Run(st, pulseWidthMs, inputs) == RunResult([c.event], Failed);
      } else if i > 0 {
        var tail := inputs[1..];
        assert ValidInputs(tail);
        var rest := Run(Running(c.next), pulseWidthMs, tail);
        assert Run(st, pulseWidthMs, inputs) == RunResult([c.event] + rest.events, rest.final);
        RunTransitionsSucceeded(Running(c.next), pulseWidthMs, tail, i - 1);
        assert i < |inputs| ==> inputs[i] == tail[i - 1];
      } else {
        CycleFatality(st.timing, pulseWidthMs, inputs[0]);
      }
    } else {
      assert Run(st, pulseWidthMs, inputs) == RunResult([], st);
    }
  }

  /**
   * Every stamp's nanoseconds are one of that iteration's busy-wait
   * readings, and its seconds are 0 for pulses shorter than a second.
   */
  lemma {:induction false} RunStamp(st: LoopState, pulseWidthMs: int, inputs: seq<CycleInput>, i: nat)
    requires st.Running? && st.timing.WellFormed() && ValidInputs(inputs) && InInt32(pulseWidthMs)
    ensures var r := Run(st, pulseWidthMs, inputs);
      i < |r.events| ==> r.events[i].nsec in inputs[i].fine && (0 <= pulseWidthMs < 1000 ==> r.events[i].sec == 0)
    decreases i
  {
    var r := Run(st, pulseWidthMs, inputs);
    if i < |r.events| {
      var c := Cycle(st.timing, pulseWidthMs, inputs[0]);
      if i > 0 {
        var tail := inputs[1..];
        assert ValidInputs(tail);
        var rest := Run(Running(c.next), pulseWidthMs, tail);
        assert r == RunResult([c.event] + rest.events, rest.final);
        RunStamp(Running(c.next), pulseWidthMs, tail, i - 1);
        assert inputs[i] == tail[i - 1];
      } else {
        CycleStamp(st.timing, pulseWidthMs, inputs[0]);
      }
    }
  }

  /** An iteration that fired is fatal exactly when a transition failed. */
  lemma CycleFatality(s: TimingState, pulseWidthMs: int, input: CycleInput)
    requires s.WellFormed() && ValidInput(input) && InInt32(pulseWidthMs)
    ensures Cycle(s, pulseWidthMs, input).Fired? ==>
      (Cycle(s, pulseWidthMs, input).fatal <==> !(input.toHigh && input.toLow))
  {
  }

  /** The stamp of an iteration that fired, in the terms `RunStamp` uses. */
  lemma CycleStamp(s: TimingState, pulseWidthMs: int, input: CycleInput)
    requires s.WellFormed() && ValidInput(input) && InInt32(pulseWidthMs)
    ensures Cycle(s, pulseWidthMs, input).Fired? ==> Cycle(s, pulseWidthMs, input).event.nsec in input.fine
    ensures Cycle(s, pulseWidthMs, input).Fired? && 0 <= pulseWidthMs < 1000 ==>
      Cycle(s, pulseWidthMs, input).event.sec == 0
  {
  }

  /**
   * A failing transition ends the loop after that iteration's stamp has
   * been published, whatever iterations would have followed.
   */
  lemma FailingCycleIsLast(s: TimingState, pulseWidthMs: int, input: CycleInput, later: seq<CycleInput>)
    requires s.WellFormed() && InInt32(pulseWidthMs) && ValidInput(input) && ValidInputs(later)
    requires !(input.toHigh && input.toLow)
    ensures Cycle(s, pulseWidthMs, input).Fired? ==>
      Run(Running(s), pulseWidthMs, [input] + later) == RunResult([Cycle(s, pulseWidthMs, input).event], Failed)
  {
  }

  /**
   * An iteration whose transitions both succeed publishes its stamp and
   * hands the advanced state to the rest of the loop.
   */
  lemma SucceedingCycleContinues(s: TimingState, pulseWidthMs: int, input: CycleInput, later: seq<CycleInput>)
    requires s.WellFormed() && InInt32(pulseWidthMs) && ValidInput(input) && ValidInputs(later)
    requires input.toHigh && input.toLow
    ensures var c := Cycle(s, pulseWidthMs, input);
      c.Fired? ==>
        var rest := Run(Running(c.next), pulseWidthMs, later);
        Run(Running(s), pulseWidthMs, [input] + later) == RunResult([c.event] + rest.events, rest.final)
  {
    assert ([input] + later)[0] == input;
    assert ([input] + later)[1..] == later;
  }

  /**
   * The node from construction to the end of the supplied iterations:
   * construction errors stop it before any stamp is published; otherwise
   * the loop runs from the initial timing state derived from the frame rate
   * and phase, with the target on the grid of the start offset.
   */
  function Launch(p: Params, mapping: Mapping, held: Pins, claim: Pins -> bool, inputs: seq<CycleInput>): (r: Result<RunResult, SetupError>)
    requires ValidInputs(inputs) && InInt32(p.pulseWidthMs)
    ensures r.Failure? <==> Construct(p, mapping, held, claim).Failure?
    ensures r.Failure? ==> r.error == Construct(p, mapping, held, claim).error
    ensures r.Success? ==>
      && p.frameRate >= MinFrameRate && IntervalNs(p.frameRate) >= 1
      && r.value == Run(Running(InitialState(IntervalNs(p.frameRate), p.phase)), p.pulseWidthMs, inputs)
  {
    match Construct(p, mapping, held, claim)
    case Failure(e) => Failure(e)
    case Success(t) =>
      Success(Run(Running(InitialState(IntervalNs(p.frameRate), p.phase)), p.pulseWidthMs, inputs))
  }

  /**
   * After a successful construction the loop keeps the target on the grid
   * of the start offset, and within the second for a phase in [0, 360).
   */
  lemma LaunchKeepsTarget(p: Params, mapping: Mapping, held: Pins, claim: Pins -> bool, inputs: seq<CycleInput>)
    requires ValidInputs(inputs) && InInt32(p.pulseWidthMs)
    requires Launch(p, mapping, held, claim, inputs).Success?
    requires Launch(p, mapping, held, claim, inputs).value.final.Running?
    ensures Launch(p, mapping, held, claim, inputs).value.final.timing.OnGrid()
    ensures 0.0 <= p.phase < 360.0 ==> 0 <= Launch(p, mapping, held, claim, inputs).value.final.timing.target < NsPerSec
  {
    var interval := IntervalNs(p.frameRate);
    assert 1 <= interval <= NsPerSec;
    var init := InitialState(interval, p.phase);
    assert init.target - init.start == 0;
    assert init.OnGrid();
    assert 0.0 <= p.phase < 360.0 ==> 0 <= init.start < NsPerSec;
    var r := Run(Running(init), p.pulseWidthMs, inputs);
    assert Launch(p, mapping, held, claim, inputs).value == r;
    RunKeepsTarget(Running(init), p.pulseWidthMs, inputs);
  }

  /**
   * A zero interval makes the catch-up pass a no-op, so once a reading is
   * ahead of the target the catch-up loop's guard stays true forever.
   */
  lemma {:induction false} ZeroIntervalNeverCatchesUp(target: int, now: int, k: nat)
    requires now > target
    ensures now > CatchUpPasses(target, 0, k)
    decreases k
  {
    if k > 0 {
      ZeroIntervalNeverCatchesUp(target, now, k - 1);
    }
  }

  /**
   * The constructor as written accepts 2e9 frames per second; the interval
   * then truncates to 0, the start offset is 0 and the window end is 1e9, so
   * every reading from 1 ns on enters the catch-up loop, which never exits.
   * The corrected constructor rejects the same parameters.
   */
  lemma GigahertzFrameRateHangs(name: string, phase: real, pulseWidthMs: int, mapping: Mapping, held: Pins, claim: Pins -> bool, now: int)
    requires HasValidEntry(mapping, name)
    requires claim(Pins(mapping[name].chip.value, mapping[name].line.value))
    requires 0 < now < NsPerSec
    ensures var p := Params(2_000_000_000.0, phase, name, pulseWidthMs);
      && ConstructAsWritten(p, mapping, held, claim).Success?
      && IntervalNs(p.frameRate) == 0
      && StartOffset(0, phase) == 0
      && now < StartOffset(0, phase) - 0 + NsPerSec
      && (forall k: nat :: now > CatchUpPasses(StartOffset(0, phase), 0, k))
      && Construct(p, mapping, held, claim) == Failure(FrameRateTooHigh)
  {
    forall k: nat ensures now > CatchUpPasses(0, 0, k) {
      ZeroIntervalNeverCatchesUp(0, now, k);
    }
  }
}

=== FILE: wrappers.dfy ===
/** The Option and Result datatypes used across the model. */
module Wrappers {

  /** A value that may be absent. */
  datatype Option<+T> = None | Some(value: T)

  /** Either a successful value or the error that stopped the computation. */
  datatype Result<+R, +E> = Success(value: R) | Failure(error: E)
}
